=== FILE: README.md ===
# ColossalAI sharding spec and distributed logger, modelled in Dafny

Two small pieces of ColossalAI, modelled as immutable datatypes and pure functions.

**Tensor sharding spec** (`colossalai/tensor/sharding_spec.py`). A `_DimSpec` says how one
tensor dimension is laid out over a logical device mesh. It is either replicated (`R`) or
sharded over a list of mesh axes (`S01`). A `ShardingSpec` takes a `dim_partition_dict` that
maps tensor dimensions to mesh axes. It runs a sanity check: every axis must lie in the mesh,
and no axis may be used twice. It then expands the dict into a dense sharding sequence with
one `_DimSpec` per tensor dimension. Modules `DimSpecs` and `ShardingSpecs` (files
`dim_spec.dfy` and `sharding_spec.dfy`) hold this part.

- The dict is a list of `(dimension, axes)` items in the dict's iteration order, which is
  insertion order. `IsDict` says keys are distinct, and `ToMap` gives the map view.
- `DeviceMesh` keeps only the number of logical mesh axes and the text of its shape.
- Conversion follows Python list indexing. A negative key in `[-len, 0)` counts from the end.
  Any other key outside the shape raises `IndexError`.

**Distributed logger** (`colossalai/logging/logger.py`), module `DistributedLogging`
(file `logger.dfy`). It is modelled as a state machine over a `Process` record:

- a registry from logger name to logger state (level, handler list, `propagate` flag);
- a trace of `Emitted` and `Flushed` events, which stands in for the sinks.

The rank collaborator is an injected `RankContext`. It answers three questions: is GLOBAL
initialized, what is this process's global rank, and what is its local rank in each group.
A failed operation returns the process unchanged together with the error it raised.

Shared helpers: `Results` (`Option`, `Result`), `Decimal` (Python's `str` of an integer,
with its inverse) and `Texts` (cutting a text at the first occurrence of a character, with
the lemma that this inverts joining at that character).

Three behaviours of the code are easy to misread. The model follows the code in each:

- The rank gate of `_log` calls `get_local_rank` unconditionally. It does NOT treat an
  uninitialized group as rank 0: it uses whatever `get_local_rank` returns and never
  consults `is_initialized`. Only `log_to_file` has that fallback, and it applies it to the
  global rank (`RankGate`, `LogIgnoresGlobalInitialization`).
- `log_to_file` is not idempotent. Each rank-0 call appends another file handler and another
  stream handler (`LogToFileTwiceDuplicatesHandlers`).
- Nothing in the code handles a failed stack walk. The caller tag is always present, so the
  model takes it as a parameter.

## Model

| member | source | states |
|---|---|---|
| DimSpecs.FromShardList | colossalai/tensor/sharding_spec.py:15-17 | a spec is a replica exactly when the shard list is absent, and otherwise keeps the given list |
| DimSpecs.Render | colossalai/tensor/sharding_spec.py:27-33 | the text is `R` exactly for a replica; a sharded spec's text starts with `S` |
| DimSpecs.RenderRoundTrip | colossalai/tensor/sharding_spec.py:27-33 | when every axis is a single digit, reading the text back one axis per digit gives the original spec |
| DimSpecs.DigitAxesOfAxesText | colossalai/tensor/sharding_spec.py:30-32 | the axes' text is the axes' decimal digits in list order, with no separators |
| DimSpecs.RenderAmbiguousBeyondTenAxes | colossalai/tensor/sharding_spec.py:30-32 | with no separators, `[1, 2]` and `[12]` both render as `S12` |
| DimSpecs.ReflectiveEqIsIdentity | colossalai/tensor/sharding_spec.py:19-25 | as written, `__eq__` holds only between an object and itself, because it also compares the bound method `difference` |
| DimSpecs.TwoReplicasCompareUnequal | colossalai/tensor/sharding_spec.py:19-25 | two separately built replica specs compare unequal as written |
| DimSpecs.DataAttributesEqualIffSameSpec | colossalai/tensor/sharding_spec.py:19-25 | comparing only `is_replica` and `shard_list` is equality of the specs, in both directions |
| Decimal.NatToString | colossalai/logging/logger.py:145 | `str` of a line number is a non-empty digit string with no leading zero |
| Decimal.IntToString | colossalai/tensor/sharding_spec.py:31-32 | `str` of an axis is non-empty, starts with `-` exactly for a negative axis, and the digits after any sign denote the axis's absolute value |
| Decimal.ValueOfNatToString | colossalai/tensor/sharding_spec.py:31-32 | reading the digits back gives the rendered number |
| Decimal.IntToStringInjective | colossalai/tensor/sharding_spec.py:31-32 | distinct axes render to distinct text |
| ShardingSpecs.MeshAxes | colossalai/tensor/sharding_spec.py:73 | the initial list of available axes is `0, 1, …, n-1` in order: it holds exactly the axes in `[0, n)`, each once |
| ShardingSpecs.RemoveFirst | colossalai/tensor/sharding_spec.py:77 | `list.remove` shortens the list by exactly one |
| ShardingSpecs.RemoveFirstMembers | colossalai/tensor/sharding_spec.py:77 | removal keeps every other member and drops nothing else; on a repeat-free list the removed axis is gone and no repeat appears |
| ShardingSpecs.CheckShardListOk | colossalai/tensor/sharding_spec.py:75-80 | one shard list passes iff its axes are all available and pairwise distinct; what is left is exactly the available axes it did not use |
| ShardingSpecs.CheckShardListErr | colossalai/tensor/sharding_spec.py:75-80 | a failing shard list names its own dimension and an axis of the list that is unavailable or repeated within it |
| ShardingSpecs.CheckEntriesOk | colossalai/tensor/sharding_spec.py:74-80 | the loop over all items passes iff all axes of the whole dict are distinct and available |
| ShardingSpecs.CheckEntriesErr | colossalai/tensor/sharding_spec.py:74-80 | a failure names a dimension whose list holds the axis, and that axis is unavailable or used twice in the dict |
| ShardingSpecs.SanityCheck | colossalai/tensor/sharding_spec.py:68-80 | succeeds iff every axis is in `[0, mesh_dims)` and no axis occurs twice in the dict; a failure raises `ValueError` naming such an axis and its dimension |
| ShardingSpecs.PyIndex | colossalai/tensor/sharding_spec.py:85 | a list index is accepted iff it lies in `[-len, len)`, and it then denotes the position itself or the position counted from the end |
| ShardingSpecs.AssignEntries | colossalai/tensor/sharding_spec.py:84-85 | the assignment loop succeeds iff every key is a valid Python index, keeps the length, and otherwise raises `IndexError` for one of the keys |
| ShardingSpecs.ConvertToShardSequence | colossalai/tensor/sharding_spec.py:82-86 | the sequence has one entry per tensor dimension; conversion fails only on a key outside `[-len, len)`, and then raises `IndexError` naming one of the dict's keys |
| ShardingSpecs.AssignEntriesLayout | colossalai/tensor/sharding_spec.py:84-85 | with distinct in-range keys, each position holds the dict's shard list for that key, or the value it had before |
| ShardingSpecs.ConvertLayout | colossalai/tensor/sharding_spec.py:82-86 | with in-range keys, `sequence[d]` is `Shard(dict[d])` for every key `d` and a replica for every other dimension |
| ShardingSpecs.ToMapKeys | colossalai/tensor/sharding_spec.py:84 | the map view has exactly the dict's keys |
| ShardingSpecs.ToMapLookup | colossalai/tensor/sharding_spec.py:84 | in the map view, every item is found under its own key |
| ShardingSpecs.NegativeKeyCollision | colossalai/tensor/sharding_spec.py:83-86 | keys `-1` and `1` over a shape of length two fill the same position; the later item wins and the earlier list is lost |
| ShardingSpecs.AssignEntriesOrigin | colossalai/tensor/sharding_spec.py:84-85 | each entry of the result is the initial entry or the shard list of some item |
| ShardingSpecs.NewShardingSpec | colossalai/tensor/sharding_spec.py:55-60 | an invalid partition raises the sanity check's error before any sequence exists; a valid partition can only fail in the conversion, with its `IndexError` for one of the dict's keys; success keeps the mesh, shape and dict unmodified, with a sequence as long as the shape |
| ShardingSpecs.NewShardingSpecLayout | colossalai/tensor/sharding_spec.py:55-60 | a valid dict with in-range keys yields the replica-or-shard layout of the dict |
| ShardingSpecs.SplitJoin | colossalai/tensor/sharding_spec.py:64 | splitting the comma-joined parts at commas gives the parts back when no part contains a comma |
| ShardingSpecs.AxesTextChars | colossalai/tensor/sharding_spec.py:30-32 | the rendered text of any axes holds only digits and minus signs |
| ShardingSpecs.RenderChars | colossalai/tensor/sharding_spec.py:27-33 | a rendered spec holds only `R`, `S`, digits and minus signs, never a comma |
| ShardingSpecs.SequenceTextChars | colossalai/tensor/sharding_spec.py:64 | a shard-sequence text holds only `R`, `S`, digits, minus signs and commas, so never a space |
| ShardingSpecs.SequenceTextRoundTrip | colossalai/tensor/sharding_spec.py:64 | when every axis is a single digit, the comma-joined shard-sequence text parses back to the sequence |
| ShardingSpecs.SpecSequenceTextRoundTrip | colossalai/tensor/sharding_spec.py:62-66 | every spec built over at most ten mesh axes has a shard-sequence text that determines its sequence |
| ShardingSpecs.SpecText | colossalai/tensor/sharding_spec.py:62-66 | the text starts with `DistSpec: ` and the `shard_sequence: ` line; the text after it splits at its first space into exactly the shard-sequence text and the `device_mesh_shape: ` part, which ends with the mesh-shape text |
| ShardingSpecs.SplicedText | colossalai/tensor/sharding_spec.py:66 | after a fixed head, a space-free part joined to the rest by a space is recovered, together with the rest, by splitting at the first space |
| ShardingSpecs.SpecTextRoundTrip | colossalai/tensor/sharding_spec.py:62-66 | for a spec built over at most ten mesh axes, the whole `repr` text parses back to its sharding sequence |
| DistributedLogging.CheckLevel | colossalai/logging/logger.py:75-77 | accepts exactly `INFO`, `DEBUG`, `WARNING` and `ERROR`, returns the level with that name, and otherwise raises naming the string |
| DistributedLogging.CheckLevelRoundTrip | colossalai/logging/logger.py:75-77 | each level's own name passes the check and denotes that level |
| DistributedLogging.Construct | colossalai/logging/logger.py:51-60 | a registered name raises with the registry unchanged; otherwise only that name is added, with a fresh logger (level unset, no handlers, propagating) named after it, and the other entries stay as they were |
| DistributedLogging.GetInstance | colossalai/logging/logger.py:35-49 | never raises; returns the logger registered under the name; if the name was absent, it registers and returns a fresh logger named after it, and nothing else changes |
| DistributedLogging.GetInstanceTwice | colossalai/logging/logger.py:36-49 | a second call returns the same logger and changes nothing |
| DistributedLogging.ConstructAfterGetInstanceFails | colossalai/logging/logger.py:52-53 | after `get_instance(n)`, direct construction under `n` raises and leaves the registry unchanged |
| DistributedLogging.SetLevel | colossalai/logging/logger.py:79-86 | fails iff the name is invalid, with nothing changed; otherwise sets only this logger's level, to the named level |
| DistributedLogging.LogToFile | colossalai/logging/logger.py:88-121 | the intended behaviour, where a bare file name is written to the working directory: the level check comes first and fails on every rank; a non-zero global rank of an initialized context changes nothing; an uninitialized context counts as rank 0; rank 0 turns off `propagate` and appends a file handler at the level and then a stream handler at INFO, keeping the earlier handlers |
| DistributedLogging.LogToFileAsWritten | colossalai/logging/logger.py:97-111 | fails iff the level is invalid, or the rank is 0 and the path has no `/` (`os.makedirs("")` raises); the level is checked first, so an invalid level always raises the level error; a failure changes nothing; on success it is `LogToFile` |
| DistributedLogging.BareFileNameFailsAsWritten | colossalai/logging/logger.py:109-111 | on rank 0, `train.log` raises as written with nothing attached, while the intended behaviour attaches the file and stream handlers |
| DistributedLogging.LogToFileTwiceDuplicatesHandlers | colossalai/logging/logger.py:115-121 | two rank-0 calls append two file-and-stream handler pairs |
| DistributedLogging.Flush | colossalai/logging/logger.py:123-125 | flushes all handlers attached at the time, and changes no logger state |
| DistributedLogging.Log | colossalai/logging/logger.py:127-135 | behind the rank gate, the message is emitted once and then the handlers are flushed; outside it nothing is emitted or flushed; logger state never changes |
| DistributedLogging.LogIgnoresGlobalInitialization | colossalai/logging/logger.py:131-133 | the gate depends only on the local rank in the given group, never on GLOBAL's initialization or the global rank |
| DistributedLogging.NoRankZeroFallbackInLog | colossalai/logging/logger.py:131-135 | `_log` uses whatever `get_local_rank` returns and never consults `is_initialized`: a local rank of 1 under `ranks=[0]` emits nothing even when GLOBAL is reported uninitialized |
| DistributedLogging.Tagged | colossalai/logging/logger.py:145 | the tagged text starts with `[` and ends with the original message; `TaggedRoundTrip` pins the caller fields between them |
| DistributedLogging.TaggedRoundTrip | colossalai/logging/logger.py:145 | the `[file, line, function] message` text gives back the caller's file, line and function and the message, when the file holds no `,` and the function no `]` |
| DistributedLogging.TaggedInjective | colossalai/logging/logger.py:145 | for one caller, different messages give different tagged texts |
| DistributedLogging.LogFrom | colossalai/logging/logger.py:137-182 | `info`, `warning`, `debug` and `error` append, behind the rank gate, exactly the caller-tagged message at their severity and then a flush of the logger's handlers to the unchanged earlier trace; outside the gate they change nothing |
| DistributedLogging.OperationsPreserveWellFormed | colossalai/logging/logger.py:33-60 | every operation, for any name, level, path and file mode, keeps each registered logger filed under its own name |
| DistributedLogging.TrainScenarioOnRankZero | colossalai/logging/logger.py:88-146 | on global rank 0: getting `train`, attaching a file sink and logging `step 1` gives a file and a stream handler, then the tagged message, then a flush of both |
| DistributedLogging.TrainScenarioOnOtherRank | colossalai/logging/logger.py:97-104 | on global rank 1 the same `log_to_file` attaches nothing |

## Left out

- Stack walking in `__get_call_info` is left out. The caller's `(file, line, function)` is a `CallInfo` parameter.
- The module-level `basicConfig` and `RichHandler` setup, formatters and date formats are left out. They are console styling only.
- Opening the log file and the `Path`-to-string conversion are left out, and so are the real handlers' writes and flushes. Handlers are records, and the trace records what the logger is handed and which handlers are flushed. Of directory creation only the empty-directory failure is modelled (`LogToFileAsWritten`).
- The `suffix` parameter of `log_to_file` is left out because the code never reads it.
- The severity filter inside Python's `logging` is left out. An `Emitted` event means the message was handed to the underlying logger. So "a WARNING-level logger drops INFO messages" is not modelled.
- `global_context` and `ParallelMode` are not part of this model. They become the injected `RankContext`, and what the collaborator does when a group is uninitialized is not modelled.
- `DeviceMesh` is reduced to its number of logical axes and the text of its shape.
- `_DimSpec.difference` and `sharding_sequence_difference` are left out. They are stubs with no behaviour.
- `logging.getLogger(name)` is modelled as returning a fresh logger (level unset, no handlers, propagating). A logger configured elsewhere in the process, and the formatters given to its existing handlers, are not modelled.
- `_check_valid_logging_level` is an `assert`, so it disappears under `python -O`. The model assumes assertions are enabled.
- Concurrent access to the registry is left out. The registry is a value that is threaded through the calls.
- DistributedLogging.LogToFile: file-system errors are not modelled. A missing permission, or a path naming an existing directory, would make `os.makedirs` or `FileHandler` raise on rank 0; the model attaches the handlers.
- ShardingSpecs.ConvertToShardSequence: sequence entries are values, not objects. The code fills every replica position with one shared `_DimSpec(None)` object, and each shard position with a fresh `_DimSpec` that holds the dict's own list. Under the as-written `__eq__`, two replica positions of one spec therefore compare equal, while replicas from two different specs, or two shard positions with equal lists, compare unequal. The model does not track this sharing; it compares entries structurally.
- ShardingSpecs.SanityCheck: the contract says a failure names a culprit axis. It does not say that this is the first culprit in iteration order, although the function computes exactly that one.

## Findings

| source | as written | input that shows it | evidently intended | confidence | as-written member | corrected member |
|---|---|---|---|---|---|---|
| colossalai/tensor/sharding_spec.py:19-25 | `__eq__` compares every non-dunder attribute from `dir()`. That includes the bound method `difference`, and bound methods are equal only when their receivers are the same object. Since `[_DimSpec(None)] * len(entire_shape)` shares one object, the replica positions of one spec still compare equal to each other | `_DimSpec(None) == _DimSpec(None)` is `False` | two specs are equal when `is_replica` and `shard_list` are equal | not executed; high on CPython 3.8 and later, where bound methods compare receivers by identity | DimSpecs.ReflectiveEqAsWritten, DimSpecs.TwoReplicasCompareUnequal | DimSpecs.DataAttributesEqual, DimSpecs.DataAttributesEqualIffSameSpec |
| colossalai/logging/logger.py:109-111 | on rank 0, `log_to_file` calls `os.makedirs(osp.dirname(path), exist_ok=True)`. For a path with no `/` the directory name is `""`, and `os.makedirs("")` raises `FileNotFoundError` | `log_to_file("train.log")` on global rank 0 | a log file in the working directory is attached like any other | not executed; high, from the standard library's documented behaviour of `dirname` and `makedirs` | DistributedLogging.LogToFileAsWritten, DistributedLogging.BareFileNameFailsAsWritten | DistributedLogging.LogToFile, DistributedLogging.LogToFileTwiceDuplicatesHandlers |

=== FILE: decimal.dfy ===
/** Python's `str()` of an integer: the decimal text used when a shard axis
    or a caller's line number is rendered. */
module Decimal {

  predicate IsDigit(c: char) {
    '0' <= c <= '9'
  }

  predicate AllDigits(s: string) {
    forall i :: 0 <= i < |s| ==> IsDigit(s[i])
  }

  function DigitChar(d: nat): (c: char)
    requires d < 10
    ensures IsDigit(c)
  {
    (48 + d) as char
  }

  function DigitValue(c: char): (d: nat)
    requires IsDigit(c)
    ensures d < 10
  {
    c as int - 48
  }

  /** `str(n)` for a non-negative `n`: most significant digit first, no leading zero. */
  function NatToString(n: nat): (s: string)
    ensures 1 <= |s|
    ensures AllDigits(s)
    ensures s[0] == '0' ==> n == 0
    decreases n
  {
    if n < 10 then [DigitChar(n)] else NatToString(n / 10) + [DigitChar(n % 10)]
  }

  /** `str(i)` for any `i`: a minus sign in front of the magnitude when negative. */
  function IntToString(i: int): (s: string)
    ensures 1 <= |s|
    ensures i < 0 <==> s[0] == '-'
    ensures i >= 0 ==> AllDigits(s)
    ensures var digits := if i < 0 then s[1..] else s;
      AllDigits(digits) && ValueOf(digits) == (if i < 0 then -i else i)
  {
    ValueOfNatToString(if i < 0 then -i else i);
    if i < 0 then "-" + NatToString(-i) else NatToString(i)
  }

  /** The number a string of decimal digits denotes (Python's `int(s)` on digit strings). */
  function ValueOf(s: string): nat
    requires AllDigits(s)
  {
    if |s| == 0 then 0 else 10 * ValueOf(s[..|s| - 1]) + DigitValue(s[|s| - 1])
  }

  /** Reading the digits back gives the number that was rendered. */
  lemma {:induction false} ValueOfNatToString(n: nat)
    ensures ValueOf(NatToString(n)) == n
    decreases n
  {
    if n >= 10 {
      var s := NatToString(n);
      assert s[..|s| - 1] == NatToString(n / 10);
      ValueOfNatToString(n / 10);
    }
  }

  /** Distinct integers render to distinct text. */
  lemma IntToStringInjective(a: int, b: int)
    requires IntToString(a) == IntToString(b)
    ensures a == b
  {
    if a < 0 {
      assert NatToString(-a) == IntToString(a)[1..] == IntToString(b)[1..] == NatToString(-b);
      ValueOfNatToString(-a);
      ValueOfNatToString(-b);
    } else {
      ValueOfNatToString(a);
      ValueOfNatToString(b);
    }
  }

  /** A number below ten renders as its single digit. */
  lemma SingleDigit(n: nat)
    requires n < 10
    ensures NatToString(n) == [DigitChar(n)]
    ensures IntToString(n) == [DigitChar(n)]
  {
  }
}

=== FILE: dim_spec.dfy ===
/** `_DimSpec`: how one tensor dimension is laid out over the logical device
    mesh, either replicated (`R`) or sharded over a list of mesh axes (`S01`). */
module DimSpecs {
  import opened Results
  import Decimal

  /** A per-dimension spec. `Shard([])` is a legal value: a present but empty
      shard list, which is not a replica and renders as `S`. */
  datatype DimSpec = Replica | Shard(axes: seq<int>)

  /** The `shard_list` attribute: absent for a replica. */
  function ShardList(d: DimSpec): Option<seq<int>> {
    match d
    case Replica => None
    case Shard(axes) => Some(axes)
  }

  /** The `is_replica` attribute. */
  predicate IsReplica(d: DimSpec) {
    d.Replica?
  }

  /** `_DimSpec(shard_list)`: the spec is a replica exactly when the list is absent,
      and otherwise keeps the list it was given. */
  function FromShardList(shardList: Option<seq<int>>): (d: DimSpec)
    ensures IsReplica(d) <==> shardList.None?
    ensures ShardList(d) == shardList
  {
    match shardList
    case None => Replica
    case Some(axes) => Shard(axes)
  }

  /** The decimal text of every axis, in list order, without separators. */
  function AxesText(axes: seq<int>): string {
    if |axes| == 0 then "" else Decimal.IntToString(axes[0]) + AxesText(axes[1..])
  }

  /** `repr` of a `_DimSpec`. */
  function Render(d: DimSpec): (r: string)
    ensures 1 <= |r|
    ensures r == "R" <==> d.Replica?
    ensures d.Shard? ==> r[0] == 'S'
  {
    match d
    case Replica => "R"
    case Shard(axes) =>
      var r := "S" + AxesText(axes);
      assert r[0] != "R"[0];
      r
  }

  /** Every axis is a single decimal digit, as in any mesh of at most ten axes. */
  predicate SingleDigitAxes(d: DimSpec) {
    d.Shard? ==> forall i :: 0 <= i < |d.axes| ==> 0 <= d.axes[i] < 10
  }

  /** Reads one axis per digit. */
  function DigitAxes(s: string): (axes: seq<int>)
    requires Decimal.AllDigits(s)
    ensures |axes| == |s|
  {
    if |s| == 0 then [] else [Decimal.DigitValue(s[0]) as int] + DigitAxes(s[1..])
  }

  /** Reads the text `Render` produces back into a spec, one axis per digit. */
  function ParseDimSpec(s: string): Option<DimSpec> {
    if s == "R" then Some(Replica)
    else if 1 <= |s| && s[0] == 'S' && Decimal.AllDigits(s[1..]) then Some(Shard(DigitAxes(s[1..])))
    else None
  }

  lemma {:induction false} DigitAxesOfAxesText(axes: seq<int>)
    requires forall i :: 0 <= i < |axes| ==> 0 <= axes[i] < 10
    ensures Decimal.AllDigits(AxesText(axes))
    ensures DigitAxes(AxesText(axes)) == axes
    decreases |axes|
  {
    if |axes| > 0 {
      var a: nat := axes[0];
      Decimal.SingleDigit(a);
      DigitAxesOfAxesText(axes[1..]);
      var t := AxesText(axes);
      assert t == [Decimal.DigitChar(a)] + AxesText(axes[1..]);
      assert t[1..] == AxesText(axes[1..]);
      assert axes == [axes[0]] + axes[1..];
    }
  }

  /** With single-digit axes the rendering loses nothing: parsing it gives the spec back. */
  lemma RenderRoundTrip(d: DimSpec)
    requires SingleDigitAxes(d)
    ensures ParseDimSpec(Render(d)) == Some(d)
  {
    if d.Shard? {
      DigitAxesOfAxesText(d.axes);
      assert Render(d)[1..] == AxesText(d.axes);
    }
  }

  /** Past ten mesh axes the rendering is ambiguous: `S12` is both [1, 2] and [12]. */
  lemma RenderAmbiguousBeyondTenAxes()
    ensures Shard([1, 2]) != Shard([12])
    ensures Render(Shard([1, 2])) == Render(Shard([12])) == "S12"
  {
    assert Decimal.NatToString(12) == Decimal.NatToString(1) + [Decimal.DigitChar(2)];
    assert AxesText([1, 2]) == Decimal.IntToString(1) + AxesText([2]);
    assert AxesText([2]) == Decimal.IntToString(2) + AxesText([]);
    assert AxesText([12]) == Decimal.IntToString(12) + AxesText([]);
  }

  // ---------------------------------------------------------------------------
  // `__eq__`: the source compares every attribute `dir()` lists whose name does
  // not start with `__`. For a `_DimSpec` object those are, in `dir()`'s
  // alphabetical order, the bound method `difference`, `is_replica` and
  // `shard_list`. A bound method compares equal to another only when both wrap
  // the same function AND the same receiver object (CPython 3.8 and later), so
  // the comparison as written can hold only for an object and itself.
  // ---------------------------------------------------------------------------

  /** A `_DimSpec` object: its identity and the spec it carries. Objects with the
      same identity are the same object. */
  datatype DimSpecObject = DimSpecObject(id: nat, spec: DimSpec)

  /** The value of one attribute as `getattr` returns it. */
  datatype AttrValue =
    | BoundMethod(func: string, receiver: nat)
    | Flag(b: bool)
    | ListOrNone(list: Option<seq<int>>)

  /** The non-dunder attributes of an object, in `dir()` order. */
  function Attributes(o: DimSpecObject): seq<(string, AttrValue)> {
    [ ("difference", BoundMethod("difference", o.id)),
      ("is_replica", Flag(IsReplica(o.spec))),
      ("shard_list", ListOrNone(ShardList(o.spec))) ]
  }

  function AttrNames(attrs: seq<(string, AttrValue)>): seq<string> {
    seq(|attrs|, i requires 0 <= i < |attrs| => attrs[i].0)
  }

  /** The loop over `dir(self)`: every listed attribute must compare equal. */
  predicate AllAttributesEqual(a: seq<(string, AttrValue)>, b: seq<(string, AttrValue)>)
    requires |a| == |b|
  {
    forall i :: 0 <= i < |a| ==> a[i].1 == b[i].1
  }

  /** `_DimSpec.__eq__` as written, including the bound-method attribute. */
  predicate ReflectiveEqAsWritten(a: DimSpecObject, b: DimSpecObject) {
    var attrsA, attrsB := Attributes(a), Attributes(b);
    AttrNames(attrsA) == AttrNames(attrsB) && AllAttributesEqual(attrsA, attrsB)
  }

  /** As written, equality holds only between an object and itself. */
  lemma ReflectiveEqIsIdentity(a: DimSpecObject, b: DimSpecObject)
    ensures ReflectiveEqAsWritten(a, b) <==> a == b
  {
    if ReflectiveEqAsWritten(a, b) {
      assert Attributes(a)[0].1 == Attributes(b)[0].1;
      assert Attributes(a)[1].1 == Attributes(b)[1].1;
      assert Attributes(a)[2].1 == Attributes(b)[2].1;
    }
  }

  /** Two replica objects built by two `_DimSpec(None)` calls compare unequal. */
  lemma TwoReplicasCompareUnequal()
    ensures !ReflectiveEqAsWritten(DimSpecObject(0, Replica), DimSpecObject(1, Replica))
  {
    ReflectiveEqIsIdentity(DimSpecObject(0, Replica), DimSpecObject(1, Replica));
  }

  /** The intended comparison: the data attributes only (`is_replica`, `shard_list`). */
  predicate DataAttributesEqual(a: DimSpecObject, b: DimSpecObject) {
    IsReplica(a.spec) == IsReplica(b.spec) && ShardList(a.spec) == ShardList(b.spec)
  }

  /** The intended comparison is structural equality of the specs, whatever the identities. */
  lemma DataAttributesEqualIffSameSpec(a: DimSpecObject, b: DimSpecObject)
    ensures DataAttributesEqual(a, b) <==> a.spec == b.spec
  {
    if DataAttributesEqual(a, b) {
      match a.spec
      case Replica =>
      case Shard(_) => assert ShardList(b.spec).Some?;
    }
  }
}

=== FILE: logger.dfy ===
/** `DistributedLogger`: a process-wide registry of named loggers, a fixed set of
    level names, file-sink attachment on global rank 0 only, and a rank gate on
    every message. The rank collaborator is injected; the sinks are abstract
    handler records and an event trace stands in for what they receive. */
module DistributedLogging {
  import opened Results
  import Decimal
  import Texts

  datatype Level = DEBUG | INFO | WARNING | ERROR

  function LevelName(l: Level): string {
    match l
    case DEBUG => "DEBUG"
    case INFO => "INFO"
    case WARNING => "WARNING"
    case ERROR => "ERROR"
  }

  /** The only spellings `_check_valid_logging_level` accepts. */
  const ValidLevelNames: seq<string> := ["INFO", "DEBUG", "WARNING", "ERROR"]

  datatype LogError =
    | DuplicateLogger(name: string)   // constructing a second logger under a registered name
    | InvalidLevel(level: string)     // the level assertion
    | MakeDirsFailed(dir: string)     // `os.makedirs` raising `FileNotFoundError`

  /** `_check_valid_logging_level`, returning the level the name denotes. */
  function CheckLevel(s: string): (r: Result<Level, LogError>)
    ensures r.Ok? <==> s in ValidLevelNames
    ensures r.Ok? ==> LevelName(r.value) == s
    ensures r.Err? ==> r.error == InvalidLevel(s)
  {
    if s == "INFO" then Ok(INFO)
    else if s == "DEBUG" then Ok(DEBUG)
    else if s == "WARNING" then Ok(WARNING)
    else if s == "ERROR" then Ok(ERROR)
    else Err(InvalidLevel(s))
  }

  /** Every level's own name passes the check and denotes that level. */
  lemma CheckLevelRoundTrip(l: Level)
    ensures CheckLevel(LevelName(l)) == Ok(l)
  {
  }

  /** A parallel-execution group; only `GLOBAL` is singled out by the logger. */
  datatype ParallelMode = GLOBAL | Group(name: string)

  /** The rank collaborator: whether the GLOBAL group is initialized, this process's
      global rank, and its local rank in each group. */
  datatype RankContext = RankContext(
    globalInitialized: bool,
    globalRank: int,
    localRank: ParallelMode -> int)

  /** An attached handler, kept only as the settings the logger gives it. */
  datatype Handler =
    | FileHandler(path: string, mode: string, level: Level)
    | StreamHandler(level: Level)

  /** The state of one named logger: the underlying logger's level (`None` while
      unset), its handlers in attachment order, and its `propagate` flag. */
  datatype Logger = Logger(name: string, level: Option<Level>, handlers: seq<Handler>, propagate: bool)

  /** What the sinks observe: a message handed to the underlying logger, or a flush
      of every handler attached at that moment. */
  datatype Event =
    | Emitted(logger: string, severity: Level, message: string)
    | Flushed(logger: string, handlers: seq<Handler>)

  /** The process: the instance registry and everything sent to the sinks so far. */
  datatype Process = Process(instances: map<string, Logger>, trace: seq<Event>)

  /** The process after an operation, and what the operation returned or raised. */
  datatype Step<T> = Step(state: Process, outcome: Result<T, LogError>)

  /** Each registered logger is filed under its own name. */
  predicate WellFormed(p: Process) {
    forall n :: n in p.instances ==> p.instances[n].name == n
  }

  /** A freshly obtained underlying logger: level unset, no handlers, propagating. */
  function FreshLogger(name: string): Logger {
    Logger(name, None, [], true)
  }

  // ---------------------------------------------------------------------------
  // Registry
  // ---------------------------------------------------------------------------

  /** `DistributedLogger(name)`: raises on a registered name with the registry as it
      was; otherwise registers a fresh logger under the name and leaves every other
      entry, and the trace, alone. */
  function Construct(p: Process, name: string): (r: Step<Logger>)
    ensures r.outcome.Err? <==> name in p.instances
    ensures r.outcome.Err? ==> r.state == p && r.outcome.error == DuplicateLogger(name)
    ensures r.outcome.Ok? ==>
      && r.state.instances.Keys == p.instances.Keys + {name}
      && r.state.instances[name] == r.outcome.value
      && r.outcome.value == FreshLogger(name)
      && (forall n :: n in p.instances ==> r.state.instances[n] == p.instances[n])
      && r.state.trace == p.trace
  {
    if name in p.instances then Step(p, Err(DuplicateLogger(name)))
    else
      var lg := FreshLogger(name);
      Step(Process(p.instances[name := lg], p.trace), Ok(lg))
  }

  /** `get_instance(name)`: never raises; returns the logger now registered under the
      name, registering a fresh one only when there was none. */
  function GetInstance(p: Process, name: string): (r: Step<Logger>)
    ensures r.outcome.Ok?
    ensures name in r.state.instances && r.outcome.value == r.state.instances[name]
    ensures r.state.instances.Keys == p.instances.Keys + {name}
    ensures forall n :: n in p.instances ==> r.state.instances[n] == p.instances[n]
    ensures name in p.instances ==> r.state == p
    ensures name !in p.instances ==> r.outcome.value == FreshLogger(name)
    ensures r.state.trace == p.trace
  {
    if name in p.instances then Step(p, Ok(p.instances[name]))
    else Construct(p, name)
  }

  /** A second `get_instance` returns the very logger the first returned and changes nothing. */
  lemma GetInstanceTwice(p: Process, name: string)
    ensures var first := GetInstance(p, name);
      GetInstance(first.state, name) == first
  {
  }

  /** After `get_instance(name)`, constructing directly under that name raises and the
      registry stays as it was. */
  lemma ConstructAfterGetInstanceFails(p: Process, name: string)
    ensures var s := GetInstance(p, name).state;
      Construct(s, name) == Step(s, Err(DuplicateLogger(name)))
  {
  }

  // ---------------------------------------------------------------------------
  // Level and file sink
  // ---------------------------------------------------------------------------

  /** Replaces the state of one registered logger. */
  function Update(p: Process, lg: Logger): Process {
    Process(p.instances[lg.name := lg], p.trace)
  }

  /** `set_level(level)`: an invalid name raises before anything changes; a valid one
      sets this logger's level and touches nothing else. */
  function SetLevel(p: Process, name: string, level: string): (r: Step<()>)
    requires name in p.instances && p.instances[name].name == name
    ensures r.outcome.Err? <==> level !in ValidLevelNames
    ensures r.outcome.Err? ==> r.state == p && r.outcome.error == InvalidLevel(level)
    ensures r.outcome.Ok? ==> r.state.instances.Keys == p.instances.Keys
    ensures r.outcome.Ok? ==>
      var before, after := p.instances[name], r.state.instances[name];
      && after.level.Some? && LevelName(after.level.value) == level
      && after == before.(level := after.level)
      && (forall n :: n in p.instances && n != name ==> r.state.instances[n] == p.instances[n])
      && r.state.trace == p.trace
  {
    match CheckLevel(level)
    case Err(e) => Step(p, Err(e))
    case Ok(l) =>
      var lg := p.instances[name];
      Step(Update(p, lg.(level := Some(l))), Ok(()))
  }

  /** The two handlers one rank-0 `log_to_file` call attaches: the file handler at the
      requested level, then a stream handler at INFO. */
  function FileSinkPair(path: string, mode: string, level: Level): seq<Handler> {
    [FileHandler(path, mode, level), StreamHandler(INFO)]
  }

  /** The rank `log_to_file` acts on: an uninitialized GLOBAL group counts as rank 0. */
  predicate FileRankIsZero(ctx: RankContext) {
    !ctx.globalInitialized || ctx.globalRank == 0
  }

  /** The rank-0 part of `log_to_file` once the directory exists: the logger stops
      propagating and gains a file handler and an INFO stream handler. */
  function AttachFileSink(p: Process, name: string, path: string, mode: string, level: Level): Process
    requires name in p.instances && p.instances[name].name == name
  {
    var lg := p.instances[name];
    Update(p, lg.(propagate := false, handlers := lg.handlers + FileSinkPair(path, mode, level)))
  }

  /** `log_to_file(path, mode, level)`, with a path that has no directory part written to
      the working directory. The level is checked first, on every rank. An uninitialized
      GLOBAL group counts as rank 0; any other rank returns with nothing changed. On rank 0
      the logger stops propagating and gains a file handler and a stream handler,
      appended after the handlers it already had. */
  function LogToFile(p: Process, ctx: RankContext, name: string, path: string, mode: string, level: string)
    : (r: Step<()>)
    requires name in p.instances && p.instances[name].name == name
    ensures r.outcome.Err? <==> level !in ValidLevelNames
    ensures r.outcome.Err? ==> r.state == p && r.outcome.error == InvalidLevel(level)
    ensures !FileRankIsZero(ctx) ==> r.state == p
    ensures r.outcome.Ok? ==> r.state.instances.Keys == p.instances.Keys
    ensures r.outcome.Ok? && FileRankIsZero(ctx) ==>
      var before, after := p.instances[name], r.state.instances[name];
      && |after.handlers| == |before.handlers| + 2
      && after.handlers[..|before.handlers|] == before.handlers
      && after.handlers[|before.handlers|].FileHandler?
      && after.handlers[|before.handlers|].path == path
      && after.handlers[|before.handlers|].mode == mode
      && LevelName(after.handlers[|before.handlers|].level) == level
      && after.handlers[|before.handlers| + 1] == StreamHandler(INFO)
      && !after.propagate
      && after.name == name && after.level == before.level
      && (forall n :: n in p.instances && n != name ==> r.state.instances[n] == p.instances[n])
      && r.state.trace == p.trace
  {
    match CheckLevel(level)
    case Err(e) => Step(p, Err(e))
    case Ok(l) =>
      if !FileRankIsZero(ctx) then Step(p, Ok(()))
      else Step(AttachFileSink(p, name, path, mode, l), Ok(()))
  }

  /** `log_to_file` as written: on rank 0 it calls `os.makedirs(os.path.dirname(path))`.
      The directory part is empty exactly when the path holds no `/`, and
      `os.makedirs("")` raises `FileNotFoundError`. So a bare file name fails on rank 0
      with nothing attached; every other input behaves as `LogToFile`. */
  function LogToFileAsWritten(p: Process, ctx: RankContext, name: string, path: string, mode: string,
                              level: string): (r: Step<()>)
    requires name in p.instances && p.instances[name].name == name
    ensures r.outcome.Err? <==> level !in ValidLevelNames || (FileRankIsZero(ctx) && '/' !in path)
    ensures r.outcome.Err? ==> r.state == p
    ensures level !in ValidLevelNames ==> r.outcome == Err(InvalidLevel(level))
    ensures r.outcome.Err? && level in ValidLevelNames ==> r.outcome.error == MakeDirsFailed("")
    ensures r.outcome.Ok? ==> r == LogToFile(p, ctx, name, path, mode, level)
  {
    match CheckLevel(level)
    case Err(e) => Step(p, Err(e))
    case Ok(l) =>
      if !FileRankIsZero(ctx) then Step(p, Ok(()))
      else if '/' !in path then Step(p, Err(MakeDirsFailed("")))
      else Step(AttachFileSink(p, name, path, mode, l), Ok(()))
  }

  /** Logging to `train.log` in the working directory: as written, rank 0 raises and
      attaches nothing; the intended behaviour attaches the file and stream handlers. */
  lemma BareFileNameFailsAsWritten(p: Process, ctx: RankContext, name: string)
    requires name in p.instances && p.instances[name].name == name
    requires FileRankIsZero(ctx)
    ensures LogToFileAsWritten(p, ctx, name, "train.log", "a", "INFO") == Step(p, Err(MakeDirsFailed("")))
    ensures LogToFile(p, ctx, name, "train.log", "a", "INFO").outcome.Ok?
    ensures LogToFile(p, ctx, name, "train.log", "a", "INFO").state.instances[name].handlers ==
      p.instances[name].handlers + FileSinkPair("train.log", "a", INFO)
  {
    assert '/' !in "train.log";
  }

  /** Calling `log_to_file` twice on rank 0 attaches two file handlers and two stream
      handlers: nothing makes the attachment idempotent. */
  lemma LogToFileTwiceDuplicatesHandlers(p: Process, ctx: RankContext, name: string, path: string)
    requires name in p.instances && p.instances[name].name == name
    requires FileRankIsZero(ctx)
    ensures var once := LogToFile(p, ctx, name, path, "a", "INFO").state;
      var twice := LogToFile(once, ctx, name, path, "a", "INFO").state;
      twice.instances[name].handlers ==
        p.instances[name].handlers + FileSinkPair(path, "a", INFO) + FileSinkPair(path, "a", INFO)
  {
  }

  // ---------------------------------------------------------------------------
  // Emission
  // ---------------------------------------------------------------------------

  /** `flush()`: every attached handler is flushed; nothing else changes. */
  function Flush(p: Process, name: string): (r: Process)
    requires name in p.instances
    ensures r.instances == p.instances
    ensures |r.trace| == |p.trace| + 1 && r.trace[..|p.trace|] == p.trace
    ensures r.trace[|p.trace|] == Flushed(name, p.instances[name].handlers)
  {
    Process(p.instances, p.trace + [Flushed(name, p.instances[name].handlers)])
  }

  /** The rank gate of `_log`: no rank list lets every process through; a rank list
      admits exactly the processes whose local rank in the group is listed. The GLOBAL
      group's initialization plays no part. */
  predicate RankGate(ctx: RankContext, mode: ParallelMode, ranks: Option<seq<int>>) {
    ranks.None? || ctx.localRank(mode) in ranks.value
  }

  /** `_log`: behind the rank gate, hands the message to the logger once and then
      flushes every handler; outside it, nothing at all happens. */
  function Log(p: Process, ctx: RankContext, name: string, severity: Level, message: string,
               mode: ParallelMode, ranks: Option<seq<int>>): (r: Process)
    requires name in p.instances
    ensures r.instances == p.instances
    ensures RankGate(ctx, mode, ranks) ==> |r.trace| == |p.trace| + 2
    ensures RankGate(ctx, mode, ranks) ==>
      && r.trace[..|p.trace|] == p.trace
      && r.trace[|p.trace|..] == [Emitted(name, severity, message), Flushed(name, p.instances[name].handlers)]
    ensures !RankGate(ctx, mode, ranks) ==> r == p
  {
    match ranks
    case None =>
      Flush(Process(p.instances, p.trace + [Emitted(name, severity, message)]), name)
    case Some(rs) =>
      var localRank := ctx.localRank(mode);
      if localRank in rs then
        Flush(Process(p.instances, p.trace + [Emitted(name, severity, message)]), name)
      else p
  }

  /** `_log` never consults GLOBAL's initialization or the global rank: two contexts that
      agree on local ranks give the same outcome. */
  lemma LogIgnoresGlobalInitialization(p: Process, ctx: RankContext, other: RankContext, name: string,
                                       severity: Level, message: string, mode: ParallelMode,
                                       ranks: Option<seq<int>>)
    requires name in p.instances
    requires other.localRank(mode) == ctx.localRank(mode)
    ensures Log(p, ctx, name, severity, message, mode, ranks) == Log(p, other, name, severity, message, mode, ranks)
  {
  }

  /** `_log` uses whatever `get_local_rank` returns and never consults `is_initialized`:
      even with GLOBAL reported uninitialized, a local rank of 1 stays silent under
      `ranks = [0]`, where a stand-in rank 0 would have emitted. */
  lemma NoRankZeroFallbackInLog(p: Process, name: string, message: string)
    requires name in p.instances
    ensures var ctx := RankContext(false, 0, _ => 1);
      Log(p, ctx, name, INFO, message, GLOBAL, Some([0])) == p
  {
  }

  /** The caller tag `(file, line, function)` prepended to every message. */
  datatype CallInfo = CallInfo(file: string, line: nat, func: string)

  /** `"[{}, {}, {}] {}".format(file, line, function, message)`. */
  function Tagged(c: CallInfo, message: string): (r: string)
    ensures |r| > |message| && r[|r| - |message|..] == message
    ensures r[0] == '['
  {
    "[" + c.file + ", " + Decimal.NatToString(c.line) + ", " + c.func + "] " + message
  }

  /** Reads a tagged text back: after `[`, the file up to the first `,`, then the rest
      of the tag and the message. */
  function ParseTagged(t: string): Option<(CallInfo, string)> {
    if |t| == 0 || t[0] != '[' then None
    else
      match Texts.SplitOnce(t[1..], ',')
      case None => None
      case Some((file, afterFile)) =>
        match ParseLineTag(afterFile)
        case None => None
        case Some((line, func, message)) => Some((CallInfo(file, line, func), message))
  }

  /** `" <digits>, <func>] <message>"`: the line number up to the next `,`, then the rest. */
  function ParseLineTag(s: string): Option<(nat, string, string)> {
    if |s| == 0 || s[0] != ' ' then None
    else
      match Texts.SplitOnce(s[1..], ',')
      case None => None
      case Some((digits, afterLine)) =>
        if |digits| == 0 || !Decimal.AllDigits(digits) then None
        else
          match ParseFuncTag(afterLine)
          case None => None
          case Some((func, message)) => Some((Decimal.ValueOf(digits), func, message))
  }

  /** `" <func>] <message>"`: the function up to `]`, and after one more space the message. */
  function ParseFuncTag(s: string): Option<(string, string)> {
    if |s| == 0 || s[0] != ' ' then None
    else
      match Texts.SplitOnce(s[1..], ']')
      case None => None
      case Some((func, afterFunc)) =>
        if |afterFunc| == 0 || afterFunc[0] != ' ' then None
        else Some((func, afterFunc[1..]))
  }

  lemma ParseFuncTagAt(func: string, message: string)
    requires ']' !in func
    ensures ParseFuncTag(" " + func + "] " + message) == Some((func, message))
  {
    var s := " " + func + "] " + message;
    assert s[1..] == func + [']'] + (" " + message);
    Texts.SplitOnceAt(func, ']', " " + message);
  }

  lemma ParseLineTagAt(line: nat, func: string, message: string)
    requires ']' !in func
    ensures ParseLineTag(" " + Decimal.NatToString(line) + ", " + func + "] " + message) ==
      Some((line, func, message))
  {
    var digits := Decimal.NatToString(line);
    var afterLine := " " + func + "] " + message;
    var s := " " + digits + ", " + func + "] " + message;
    assert s[1..] == digits + [','] + afterLine;
    assert ',' !in digits by {
      forall i | 0 <= i < |digits|
        ensures digits[i] != ','
      {
        assert Decimal.IsDigit(digits[i]);
      }
    }
    Texts.SplitOnceAt(digits, ',', afterLine);
    ParseFuncTagAt(func, message);
    Decimal.ValueOfNatToString(line);
  }

  /** The tag carries the caller: from the tagged text, the file, line, function and
      message all come back, as long as the file holds no `,` and the function no `]`. */
  lemma TaggedRoundTrip(c: CallInfo, message: string)
    requires ',' !in c.file && ']' !in c.func
    ensures ParseTagged(Tagged(c, message)) == Some((c, message))
  {
    var afterFile := " " + Decimal.NatToString(c.line) + ", " + c.func + "] " + message;
    var t := Tagged(c, message);
    assert t[1..] == c.file + [','] + afterFile;
    Texts.SplitOnceAt(c.file, ',', afterFile);
    ParseLineTagAt(c.line, c.func, message);
  }

  /** `info`, `warning`, `debug` and `error`: tag the message with its caller, then `_log`
      it at that severity. What reaches the sinks is the tagged text, or nothing. */
  function LogFrom(p: Process, ctx: RankContext, name: string, severity: Level, caller: CallInfo,
                   message: string, mode: ParallelMode, ranks: Option<seq<int>>): (r: Process)
    requires name in p.instances
    ensures r.instances == p.instances
    ensures RankGate(ctx, mode, ranks) ==>
      r.trace == p.trace + [Emitted(name, severity, Tagged(caller, message)), Flushed(name, p.instances[name].handlers)]
    ensures !RankGate(ctx, mode, ranks) ==> r == p
  {
    Log(p, ctx, name, severity, Tagged(caller, message), mode, ranks)
  }

  function Info(p: Process, ctx: RankContext, name: string, caller: CallInfo, message: string,
                mode: ParallelMode, ranks: Option<seq<int>>): Process
    requires name in p.instances
  {
    LogFrom(p, ctx, name, INFO, caller, message, mode, ranks)
  }

  function Warning(p: Process, ctx: RankContext, name: string, caller: CallInfo, message: string,
                   mode: ParallelMode, ranks: Option<seq<int>>): Process
    requires name in p.instances
  {
    LogFrom(p, ctx, name, WARNING, caller, message, mode, ranks)
  }

  function Debug(p: Process, ctx: RankContext, name: string, caller: CallInfo, message: string,
                 mode: ParallelMode, ranks: Option<seq<int>>): Process
    requires name in p.instances
  {
    LogFrom(p, ctx, name, DEBUG, caller, message, mode, ranks)
  }

  function Error(p: Process, ctx: RankContext, name: string, caller: CallInfo, message: string,
                 mode: ParallelMode, ranks: Option<seq<int>>): Process
    requires name in p.instances
  {
    LogFrom(p, ctx, name, ERROR, caller, message, mode, ranks)
  }

  // ---------------------------------------------------------------------------
  // Whole-process properties
  // ---------------------------------------------------------------------------

  /** Every operation keeps each logger filed under its own name. */
  lemma OperationsPreserveWellFormed(p: Process, ctx: RankContext, name: string, level: string,
                                     path: string, fileMode: string, message: string,
                                     caller: CallInfo, severity: Level, mode: ParallelMode,
                                     ranks: Option<seq<int>>)
    requires WellFormed(p)
    ensures WellFormed(Construct(p, name).state)
    ensures WellFormed(GetInstance(p, name).state)
    ensures name in p.instances ==>
      && WellFormed(SetLevel(p, name, level).state)
      && WellFormed(LogToFile(p, ctx, name, path, fileMode, level).state)
      && WellFormed(LogToFileAsWritten(p, ctx, name, path, fileMode, level).state)
      && WellFormed(LogFrom(p, ctx, name, severity, caller, message, mode, ranks))
      && WellFormed(Flush(p, name))
  {
  }

  /** The scenario of a training script: get logger "train", attach a file sink on the
      process that is GLOBAL rank 0, log "step 1" at INFO. The file handler is attached
      and the tagged message reaches the sinks, followed by a flush of both new handlers. */
  lemma TrainScenarioOnRankZero(caller: CallInfo)
    ensures var ctx := RankContext(true, 0, _ => 0);
      var p0 := GetInstance(Process(map[], []), "train").state;
      var p1 := LogToFile(p0, ctx, "train", "/tmp/x/log.txt", "a", "INFO").state;
      var p2 := Info(p1, ctx, "train", caller, "step 1", GLOBAL, None);
      && p2.instances["train"].handlers == FileSinkPair("/tmp/x/log.txt", "a", INFO)
      && p2.trace == [Emitted("train", INFO, Tagged(caller, "step 1")),
                      Flushed("train", FileSinkPair("/tmp/x/log.txt", "a", INFO))]
  {
  }

  /** The same script on a process whose global rank is 1 attaches no handler at all. */
  lemma TrainScenarioOnOtherRank(caller: CallInfo)
    ensures var ctx := RankContext(true, 1, _ => 1);
      var p0 := GetInstance(Process(map[], []), "train").state;
      var p1 := LogToFile(p0, ctx, "train", "/tmp/x/log.txt", "a", "INFO").state;
      p1 == p0 && p1.instances["train"].handlers == []
  {
  }
}

=== FILE: results.dfy ===
/** Failure-carrying wrappers shared by the sharding and logging models:
    a Python `None`-or-value, and a return-or-raise outcome. */
module Results {

  /** A value that may be absent (Python's `None`). */
  datatype Option<+T> = None | Some(value: T)

  /** Either the value an operation returned or the exception it raised. */
  datatype Result<+T, +E> = Ok(value: T) | Err(error: E)
}

=== FILE: sharding_spec.dfy ===
/** `ShardingSpec`: validates a partition of tensor dimensions over the axes of a
    logical device mesh and expands it into one `DimSpec` per tensor dimension. */
module ShardingSpecs {
  import opened Results
  import opened DimSpecs
  import Decimal
  import Texts

  /** `dim_partition_dict`: its (tensor dimension, mesh axes) items in the dict's
      iteration order, which is insertion order. */
  type Partition = seq<(int, seq<int>)>

  /** A Python dict never holds a key twice. */
  predicate IsDict(d: Partition) {
    forall i, j :: 0 <= i < j < |d| ==> d[i].0 != d[j].0
  }

  /** The dict as a map from tensor dimension to mesh axes. */
  function ToMap(d: Partition): map<int, seq<int>> {
    if |d| == 0 then map[] else ToMap(d[1..])[d[0].0 := d[0].1]
  }

  /** The device mesh, reduced to what the sharding spec reads from it: the number of
      logical mesh axes (`logical_mesh_id.dim()`) and the text of `mesh_shape`. */
  datatype DeviceMesh = DeviceMesh(logicalDims: nat, shapeText: string)

  datatype ShardingError =
    | InvalidAxis(axis: int, dim: int)   // the `ValueError` of the sanity check
    | IndexError(dim: int)               // assigning to a tensor dimension the shape lacks

  /** Every mesh axis the dict uses, in the order the sanity check visits them. */
  function Flatten(d: Partition): seq<int> {
    if |d| == 0 then [] else d[0].1 + Flatten(d[1..])
  }

  predicate NoRepeats(s: seq<int>) {
    forall i, j :: 0 <= i < j < |s| ==> s[i] != s[j]
  }

  /** What the sanity check is meant to enforce: every axis used lies in the mesh, and
      no axis is used twice, whether in one shard list or across two. */
  predicate ValidPartition(d: Partition, meshDims: nat) {
    var axes := Flatten(d);
    && (forall i :: 0 <= i < |axes| ==> 0 <= axes[i] < meshDims)
    && NoRepeats(axes)
  }

  // ---------------------------------------------------------------------------
  // `_sanity_check`
  // ---------------------------------------------------------------------------

  /** `[i for i in range(n)]`. */
  function MeshAxes(n: nat): (r: seq<int>)
    ensures |r| == n
    ensures forall i :: 0 <= i < n ==> r[i] == i
    ensures forall x :: x in r <==> 0 <= x < n
    ensures NoRepeats(r)
  {
    var r := seq(n, i => i);
    assert forall x :: x in r <==> 0 <= x < n by {
      forall x | 0 <= x < n
        ensures x in r
      {
        assert r[x] == x;
      }
    }
    r
  }

  /** `list.remove(x)` for an `x` the list holds: drops its first occurrence. */
  function RemoveFirst(s: seq<int>, x: int): (r: seq<int>)
    requires x in s
    ensures |r| == |s| - 1
  {
    if s[0] == x then s[1..] else [s[0]] + RemoveFirst(s[1..], x)
  }

  /** The inner loop for one `(dim, shard_list)` item: consumes each axis from the
      list of still available axes, or raises on the first it cannot find. */
  function CheckShardList(dim: int, axes: seq<int>, avail: seq<int>): Result<seq<int>, ShardingError> {
    if |axes| == 0 then Ok(avail)
    else if axes[0] in avail then CheckShardList(dim, axes[1..], RemoveFirst(avail, axes[0]))
    else Err(InvalidAxis(axes[0], dim))
  }

  /** The outer loop over the dict's items. */
  function CheckEntries(d: Partition, avail: seq<int>): Result<seq<int>, ShardingError> {
    if |d| == 0 then Ok(avail)
    else
      match CheckShardList(d[0].0, d[0].1, avail)
      case Err(e) => Err(e)
      case Ok(rest) => CheckEntries(d[1..], rest)
  }

  /** The offending axis of a failed check: it belongs to the named tensor dimension's
      shard list, and it is either outside the mesh or used more than once. */
  predicate Culprit(d: Partition, meshDims: nat, e: ShardingError) {
    && e.InvalidAxis?
    && (exists i :: 0 <= i < |d| && d[i].0 == e.dim && e.axis in d[i].1)
    && (!(0 <= e.axis < meshDims) || multiset(Flatten(d))[e.axis] >= 2)
  }

  /** `_sanity_check`: succeeds exactly on valid partitions; otherwise names a culprit. */
  function SanityCheck(mesh: DeviceMesh, d: Partition): (r: Result<(), ShardingError>)
    ensures r.Ok? <==> ValidPartition(d, mesh.logicalDims)
    ensures r.Err? ==> Culprit(d, mesh.logicalDims, r.error)
  {
    var avail := MeshAxes(mesh.logicalDims);
    CheckEntriesOk(d, avail);
    CheckEntriesErr(d, avail);
    match CheckEntries(d, avail)
    case Err(e) => Err(e)
    case Ok(_) => Ok(())
  }

  lemma {:induction false} RemoveFirstMembers(s: seq<int>, x: int)
    requires x in s
    ensures forall y :: y in RemoveFirst(s, x) ==> y in s
    ensures forall y :: y in s && y != x ==> y in RemoveFirst(s, x)
    ensures NoRepeats(s) ==> NoRepeats(RemoveFirst(s, x)) && x !in RemoveFirst(s, x)
    decreases |s|
  {
    if s[0] != x {
      RemoveFirstMembers(s[1..], x);
      var r := RemoveFirst(s, x);
      assert r == [s[0]] + RemoveFirst(s[1..], x);
      forall y | y in s && y != x
        ensures y in r
      {
        if y != s[0] {
          assert y in s[1..];
        }
      }
      if NoRepeats(s) {
        assert NoRepeats(s[1..]);
        assert s[0] !in s[1..];
      }
    } else if NoRepeats(s) {
      assert x !in s[1..];
    }
  }

  lemma NoRepeatsConcat(a: seq<int>, b: seq<int>)
    ensures NoRepeats(a + b) <==> NoRepeats(a) && NoRepeats(b) && forall x :: x in a ==> x !in b
  {
    var ab := a + b;
    if NoRepeats(a) && NoRepeats(b) && forall x :: x in a ==> x !in b {
      forall i, j | 0 <= i < j < |ab|
        ensures ab[i] != ab[j]
      {
        if j >= |a| && i < |a| {
          assert ab[i] in a && ab[j] in b;
        } else if i >= |a| {
          assert ab[i] == b[i - |a|] && ab[j] == b[j - |a|];
        }
      }
    }
    if NoRepeats(ab) {
      forall i, j | 0 <= i < j < |a|
        ensures a[i] != a[j]
      {
        assert a[i] == ab[i] && a[j] == ab[j];
      }
      forall i, j | 0 <= i < j < |b|
        ensures b[i] != b[j]
      {
        assert b[i] == ab[|a| + i] && b[j] == ab[|a| + j];
      }
      forall i, j | 0 <= i < |a| && 0 <= j < |b|
        ensures a[i] != b[j]
      {
        assert a[i] == ab[i] && b[j] == ab[|a| + j];
      }
    }
  }

  lemma {:induction false} CheckShardListOk(dim: int, axes: seq<int>, avail: seq<int>)
    requires NoRepeats(avail)
    ensures CheckShardList(dim, axes, avail).Ok? <==> NoRepeats(axes) && forall i :: 0 <= i < |axes| ==> axes[i] in avail
    ensures CheckShardList(dim, axes, avail).Ok? ==>
      var rest := CheckShardList(dim, axes, avail).value;
      NoRepeats(rest) && forall y :: y in rest <==> y in avail && y !in axes
    decreases |axes|
  {
    if |axes| > 0 {
      assert axes == [axes[0]] + axes[1..];
      NoRepeatsConcat([axes[0]], axes[1..]);
      if axes[0] in avail {
        var avail' := RemoveFirst(avail, axes[0]);
        RemoveFirstMembers(avail, axes[0]);
        CheckShardListOk(dim, axes[1..], avail');
        if NoRepeats(axes) && forall i :: 0 <= i < |axes| ==> axes[i] in avail {
          forall i | 0 <= i < |axes[1..]|
            ensures axes[1..][i] in avail'
          {
            assert axes[1..][i] == axes[i + 1] != axes[0];
          }
        }
        if CheckShardList(dim, axes, avail).Ok? {
          forall i | 0 <= i < |axes|
            ensures axes[i] in avail
          {
            if i > 0 {
              assert axes[i] == axes[1..][i - 1];
            }
          }
        }
      }
    }
  }

  lemma {:induction false} CheckShardListErr(dim: int, axes: seq<int>, avail: seq<int>)
    ensures CheckShardList(dim, axes, avail).Err? ==>
      var e := CheckShardList(dim, axes, avail).error;
      e.InvalidAxis? && e.dim == dim && e.axis in axes && (e.axis !in avail || multiset(axes)[e.axis] >= 2)
    decreases |axes|
  {
    if |axes| > 0 && axes[0] in avail {
      var avail' := RemoveFirst(avail, axes[0]);
      RemoveFirstMembers(avail, axes[0]);
      CheckShardListErr(dim, axes[1..], avail');
      assert axes == [axes[0]] + axes[1..];
      assert multiset(axes) == multiset([axes[0]]) + multiset(axes[1..]);
    }
  }

  lemma {:induction false} CheckEntriesOk(d: Partition, avail: seq<int>)
    requires NoRepeats(avail)
    ensures CheckEntries(d, avail).Ok? <==>
      NoRepeats(Flatten(d)) && forall i :: 0 <= i < |Flatten(d)| ==> Flatten(d)[i] in avail
    decreases |d|
  {
    if |d| > 0 {
      var axes := d[0].1;
      var f := Flatten(d);
      assert f == axes + Flatten(d[1..]);
      NoRepeatsConcat(axes, Flatten(d[1..]));
      CheckShardListOk(d[0].0, axes, avail);
      var r := CheckShardList(d[0].0, axes, avail);
      if r.Ok? {
        var rest := r.value;
        CheckEntriesOk(d[1..], rest);
        var g := Flatten(d[1..]);
        if NoRepeats(f) && forall i :: 0 <= i < |f| ==> f[i] in avail {
          forall i | 0 <= i < |axes|
            ensures axes[i] in avail
          {
            assert axes[i] == f[i];
          }
          forall i | 0 <= i < |g|
            ensures g[i] in rest
          {
            assert g[i] == f[|axes| + i];
          }
        }
        if CheckEntries(d, avail).Ok? {
          forall i | 0 <= i < |f|
            ensures f[i] in avail
          {
            if i >= |axes| {
              assert f[i] == g[i - |axes|];
            }
          }
        }
      } else {
        if NoRepeats(f) && forall i :: 0 <= i < |f| ==> f[i] in avail {
          forall i | 0 <= i < |axes|
            ensures axes[i] in avail
          {
            assert axes[i] == f[i];
          }
        }
      }
    }
  }

  lemma {:induction false} CheckEntriesErr(d: Partition, avail: seq<int>)
    requires NoRepeats(avail)
    ensures CheckEntries(d, avail).Err? ==>
      var e := CheckEntries(d, avail).error;
      && e.InvalidAxis?
      && (exists i :: 0 <= i < |d| && d[i].0 == e.dim && e.axis in d[i].1)
      && (e.axis !in avail || multiset(Flatten(d))[e.axis] >= 2)
    decreases |d|
  {
    if |d| > 0 {
      var axes := d[0].1;
      assert Flatten(d) == axes + Flatten(d[1..]);
      var r := CheckShardList(d[0].0, axes, avail);
      CheckShardListErr(d[0].0, axes, avail);
      CheckShardListOk(d[0].0, axes, avail);
      if r.Err? {
        assert d[0].0 == r.error.dim && r.error.axis in d[0].1;
      } else {
        CheckEntriesErr(d[1..], r.value);
        if CheckEntries(d, avail).Err? {
          var e := CheckEntries(d, avail).error;
          var i :| 0 <= i < |d[1..]| && d[1..][i].0 == e.dim && e.axis in d[1..][i].1;
          assert d[i + 1] == d[1..][i];
          if e.axis in avail && e.axis !in r.value {
            assert e.axis in axes;
            FlattenMembers(d[1..], i, e.axis);
            assert multiset(Flatten(d))[e.axis] == multiset(axes)[e.axis] + multiset(Flatten(d[1..]))[e.axis];
          }
        }
      }
    }
  }

  // ---------------------------------------------------------------------------
  // `convert_dict_to_shard_sequence`
  // ---------------------------------------------------------------------------

  /** Python's list indexing: a negative index counts from the end; anything outside
      `[-len, len)` is an `IndexError`. */
  function PyIndex(i: int, len: nat): (r: Option<nat>)
    ensures r.Some? <==> -(len as int) <= i < len
    ensures r.Some? ==> r.value < len && (r.value == i || r.value == i + len)
  {
    if 0 <= i < len then Some(i) else if -(len as int) <= i < 0 then Some(i + len) else None
  }

  /** The loop `sharding_sequence[dim] = _DimSpec(shard_list)` over the dict's items. */
  function AssignEntries(s: seq<DimSpec>, d: Partition): (r: Result<seq<DimSpec>, ShardingError>)
    ensures r.Ok? <==> forall i :: 0 <= i < |d| ==> -|s| <= d[i].0 < |s|
    ensures r.Ok? ==> |r.value| == |s|
    ensures r.Err? ==> r.error.IndexError? && exists i :: 0 <= i < |d| && d[i].0 == r.error.dim
    decreases |d|
  {
    if |d| == 0 then Ok(s)
    else
      match PyIndex(d[0].0, |s|)
      case None => Err(IndexError(d[0].0))
      case Some(k) =>
        var r := AssignEntries(s[k := Shard(d[0].1)], d[1..]);
        assert forall i :: 1 <= i < |d| ==> d[i] == d[1..][i - 1];
        r
  }

  /** `convert_dict_to_shard_sequence`: start from all-replica, then shard the listed dims. */
  function ConvertToShardSequence(len: nat, d: Partition): (r: Result<seq<DimSpec>, ShardingError>)
    ensures r.Ok? <==> forall i :: 0 <= i < |d| ==> -(len as int) <= d[i].0 < len
    ensures r.Ok? ==> |r.value| == len
    ensures r.Err? ==> r.error.IndexError? && exists i :: 0 <= i < |d| && d[i].0 == r.error.dim
  {
    AssignEntries(seq(len, _ => Replica), d)
  }

  lemma {:induction false} ToMapKeys(d: Partition)
    ensures forall k :: k in ToMap(d) <==> exists i :: 0 <= i < |d| && d[i].0 == k
    decreases |d|
  {
    if |d| > 0 {
      ToMapKeys(d[1..]);
      forall k | k in ToMap(d)
        ensures exists i :: 0 <= i < |d| && d[i].0 == k
      {
        if k != d[0].0 {
          assert k in ToMap(d[1..]);
          var i :| 0 <= i < |d[1..]| && d[1..][i].0 == k;
          assert d[i + 1].0 == k;
        }
      }
      forall k | exists i :: 0 <= i < |d| && d[i].0 == k
        ensures k in ToMap(d)
      {
        var i :| 0 <= i < |d| && d[i].0 == k;
        if i > 0 {
          assert d[1..][i - 1].0 == k;
        }
      }
    }
  }

  /** In a dict, every item is found in the map view under its own key. */
  lemma {:induction false} ToMapLookup(d: Partition)
    requires IsDict(d)
    ensures forall i :: 0 <= i < |d| ==> d[i].0 in ToMap(d) && ToMap(d)[d[i].0] == d[i].1
    decreases |d|
  {
    if |d| > 0 {
      ToMapLookup(d[1..]);
      forall i | 1 <= i < |d|
        ensures d[i].0 in ToMap(d) && ToMap(d)[d[i].0] == d[i].1
      {
        assert d[i] == d[1..][i - 1];
      }
    }
  }

  lemma {:induction false} AssignEntriesLayout(s: seq<DimSpec>, d: Partition)
    requires IsDict(d)
    requires forall i :: 0 <= i < |d| ==> 0 <= d[i].0 < |s|
    ensures AssignEntries(s, d).Ok?
    ensures forall k :: 0 <= k < |s| ==>
      AssignEntries(s, d).value[k] == if k in ToMap(d) then Shard(ToMap(d)[k]) else s[k]
    decreases |d|
  {
    if |d| > 0 {
      var k0 := d[0].0;
      var s' := s[k0 := Shard(d[0].1)];
      assert forall i :: 0 <= i < |d[1..]| ==> d[1..][i] == d[i + 1];
      AssignEntriesLayout(s', d[1..]);
      ToMapKeys(d[1..]);
      assert k0 !in ToMap(d[1..]);
    }
  }

  /** With every key a valid tensor dimension, the sequence has one entry per dimension:
      the dict's shard list where the dimension is a key, a replica everywhere else. */
  lemma ConvertLayout(len: nat, d: Partition)
    requires IsDict(d)
    requires forall i :: 0 <= i < |d| ==> 0 <= d[i].0 < len
    ensures ConvertToShardSequence(len, d).Ok?
    ensures forall k :: 0 <= k < len ==>
      ConvertToShardSequence(len, d).value[k] == if k in ToMap(d) then Shard(ToMap(d)[k]) else Replica
    ensures forall i :: 0 <= i < |d| ==> ConvertToShardSequence(len, d).value[d[i].0] == Shard(d[i].1)
    ensures forall k :: 0 <= k < len && (forall i :: 0 <= i < |d| ==> d[i].0 != k) ==>
      ConvertToShardSequence(len, d).value[k] == Replica
  {
    AssignEntriesLayout(seq(len, _ => Replica), d);
    ToMapLookup(d);
    ToMapKeys(d);
  }

  /** Two keys naming the same dimension from both ends collide: the later item wins and
      the earlier one's shard list is lost from the sequence. */
  lemma NegativeKeyCollision()
    ensures IsDict([(-1, [0]), (1, [1])])
    ensures ConvertToShardSequence(2, [(-1, [0]), (1, [1])]) == Ok([Replica, Shard([1])])
  {
    var d: Partition := [(-1, [0]), (1, [1])];
    var s0 := seq(2, _ => Replica);
    assert s0 == [Replica, Replica];
    assert PyIndex(-1, 2) == Some(1);
    assert s0[1 := Shard([0])] == [Replica, Shard([0])];
    assert AssignEntries(s0, d) == AssignEntries([Replica, Shard([0])], d[1..]);
    assert d[1..][0] == (1, [1]) && d[1..][1..] == [];
    assert [Replica, Shard([0])][1 := Shard([1])] == [Replica, Shard([1])];
    assert AssignEntries([Replica, Shard([0])], d[1..]) == AssignEntries([Replica, Shard([1])], []);
  }

  // ---------------------------------------------------------------------------
  // `ShardingSpec.__init__`
  // ---------------------------------------------------------------------------

  datatype ShardingSpec = ShardingSpec(
    mesh: DeviceMesh,
    entireShape: seq<nat>,
    partition: Partition,
    sequence: seq<DimSpec>)

  /** The constructor: sanity check first, then the conversion. An invalid partition
      raises before any sequence exists; a valid one is stored exactly as given. */
  function NewShardingSpec(mesh: DeviceMesh, entireShape: seq<nat>, partition: Partition)
    : (r: Result<ShardingSpec, ShardingError>)
    ensures !ValidPartition(partition, mesh.logicalDims) ==>
      r.Err? && Culprit(partition, mesh.logicalDims, r.error)
    ensures r.Err? && ValidPartition(partition, mesh.logicalDims) ==>
      r.error.IndexError? && exists i :: 0 <= i < |partition| && partition[i].0 == r.error.dim
    ensures r.Ok? <==>
      && ValidPartition(partition, mesh.logicalDims)
      && forall i :: 0 <= i < |partition| ==> -|entireShape| <= partition[i].0 < |entireShape|
    ensures r.Ok? ==>
      && r.value.mesh == mesh
      && r.value.entireShape == entireShape
      && r.value.partition == partition
      && |r.value.sequence| == |entireShape|
  {
    match SanityCheck(mesh, partition)
    case Err(e) => Err(e)
    case Ok(_) =>
      match ConvertToShardSequence(|entireShape|, partition)
      case Err(e) => Err(e)
      case Ok(s) => Ok(ShardingSpec(mesh, entireShape, partition, s))
  }

  /** A valid dict whose keys are dimensions of the shape yields the expected layout. */
  lemma NewShardingSpecLayout(mesh: DeviceMesh, entireShape: seq<nat>, partition: Partition)
    requires IsDict(partition)
    requires ValidPartition(partition, mesh.logicalDims)
    requires forall i :: 0 <= i < |partition| ==> 0 <= partition[i].0 < |entireShape|
    ensures NewShardingSpec(mesh, entireShape, partition).Ok?
    ensures forall k :: 0 <= k < |entireShape| ==>
      NewShardingSpec(mesh, entireShape, partition).value.sequence[k] ==
        if k in ToMap(partition) then Shard(ToMap(partition)[k]) else Replica
  {
    ConvertLayout(|entireShape|, partition);
  }

  // ---------------------------------------------------------------------------
  // `__repr__`
  // ---------------------------------------------------------------------------

  /** `",".join(parts)`. */
  function Join(parts: seq<string>): string {
    if |parts| == 0 then ""
    else if |parts| == 1 then parts[0]
    else parts[0] + "," + Join(parts[1..])
  }

  function Renders(s: seq<DimSpec>): (r: seq<string>)
    ensures |r| == |s|
  {
    seq(|s|, i requires 0 <= i < |s| => Render(s[i]))
  }

  /** The shard-sequence text of `__repr__`, e.g. `R,S0,S12`. */
  function SequenceText(s: seq<DimSpec>): string {
    Join(Renders(s))
  }

  /** What `__repr__` writes before the shard sequence: `"DistSpec:"`, the joining
      space, and the head of the second part. */
  const SpecTextHead: string := "DistSpec: \n\tshard_sequence: "

  /** The head of `__repr__`'s third part, which follows a joining space. */
  const MeshShapeHead: string := "\n\tdevice_mesh_shape: "

  /** `__repr__`: the three parts joined by single spaces; `device_mesh.mesh_shape`
      enters as its text. The shard-sequence text is what follows the fixed head up to
      the first space, since a shard-sequence text never contains a space; the rest is the
      mesh-shape part. */
  function SpecText(spec: ShardingSpec): (r: string)
    ensures |r| > |SpecTextHead| && r[..|SpecTextHead|] == SpecTextHead
    ensures Texts.SplitOnce(r[|SpecTextHead|..], ' ') ==
      Some((SequenceText(spec.sequence), MeshShapeHead + spec.mesh.shapeText))
  {
    var t := SequenceText(spec.sequence);
    SequenceTextChars(spec.sequence);
    SplicedText(SpecTextHead, t, MeshShapeHead + spec.mesh.shapeText);
    SpecTextHead + t + " " + (MeshShapeHead + spec.mesh.shapeText)
  }

  /** In `head + t + " " + rest` with no space in `t`, the text after `head` splits at its
      first space into `t` and `rest`. */
  lemma SplicedText(head: string, t: string, rest: string)
    requires ' ' !in t
    ensures var r := head + t + " " + rest;
      && |r| > |head| && r[..|head|] == head
      && Texts.SplitOnce(r[|head|..], ' ') == Some((t, rest))
  {
    var r := head + t + " " + rest;
    assert r[|head|..] == t + [' '] + rest;
    Texts.SplitOnceAt(t, ' ', rest);
  }

  /** Reads the shard sequence back out of a `__repr__` text. */
  function ParseSpecText(t: string): Option<seq<DimSpec>> {
    if |t| >= |SpecTextHead| && t[..|SpecTextHead|] == SpecTextHead
    then
      match Texts.SplitOnce(t[|SpecTextHead|..], ' ')
      case None => None
      case Some((sequenceText, _)) => ParseSequenceText(sequenceText)
    else None
  }

  /** A character a shard-sequence text can hold. */
  predicate SequenceChar(c: char) {
    Decimal.IsDigit(c) || c == '-' || c == 'R' || c == 'S' || c == ','
  }

  /** Splits at every comma (Python's `str.split(",")` on a non-empty string). */
  function Split(s: string): (r: seq<string>)
    ensures 1 <= |r|
  {
    if |s| == 0 then [""]
    else
      var rest := Split(s[1..]);
      if s[0] == ',' then [""] + rest else [[s[0]] + rest[0]] + rest[1..]
  }

  function ParseAll(parts: seq<string>): Option<seq<DimSpec>> {
    if |parts| == 0 then Some([])
    else
      match (ParseDimSpec(parts[0]), ParseAll(parts[1..]))
      case (Some(d), Some(ds)) => Some([d] + ds)
      case _ => None
  }

  /** Reads a shard-sequence text back. */
  function ParseSequenceText(t: string): Option<seq<DimSpec>> {
    if t == "" then Some([]) else ParseAll(Split(t))
  }

  lemma {:induction false} SplitNoComma(p: string)
    requires ',' !in p
    ensures Split(p) == [p]
    decreases |p|
  {
    if |p| > 0 {
      SplitNoComma(p[1..]);
      assert [p[0]] + p[1..] == p;
    }
  }

  lemma {:induction false} SplitAtComma(p: string, rest: string)
    requires ',' !in p
    ensures Split(p + "," + rest) == [p] + Split(rest)
    decreases |p|
  {
    var s := p + "," + rest;
    if |p| == 0 {
      assert s == "," + rest;
      assert s[1..] == rest;
    } else {
      assert s[1..] == p[1..] + "," + rest;
      SplitAtComma(p[1..], rest);
      assert [p[0]] + p[1..] == p;
    }
  }

  lemma {:induction false} SplitJoin(parts: seq<string>)
    requires 1 <= |parts|
    requires forall i :: 0 <= i < |parts| ==> ',' !in parts[i]
    ensures Split(Join(parts)) == parts
    decreases |parts|
  {
    if |parts| == 1 {
      SplitNoComma(parts[0]);
    } else {
      SplitAtComma(parts[0], Join(parts[1..]));
      SplitJoin(parts[1..]);
    }
  }

  /** Rendered axes hold only digits and minus signs. */
  lemma {:induction false} AxesTextChars(axes: seq<int>)
    ensures forall i :: 0 <= i < |AxesText(axes)| ==> Decimal.IsDigit(AxesText(axes)[i]) || AxesText(axes)[i] == '-'
    decreases |axes|
  {
    if |axes| > 0 {
      AxesTextChars(axes[1..]);
      var t := Decimal.IntToString(axes[0]);
      if axes[0] < 0 {
        assert t == "-" + Decimal.NatToString(-axes[0]);
        assert forall i :: 1 <= i < |t| ==> t[i] == Decimal.NatToString(-axes[0])[i - 1];
      }
      assert AxesText(axes) == t + AxesText(axes[1..]);
    }
  }

  /** A rendered spec holds only `R`, `S`, digits and minus signs. */
  lemma RenderChars(d: DimSpec)
    ensures forall i :: 0 <= i < |Render(d)| ==> SequenceChar(Render(d)[i]) && Render(d)[i] != ','
  {
    if d.Shard? {
      AxesTextChars(d.axes);
      assert Render(d) == "S" + AxesText(d.axes);
    }
  }

  lemma {:induction false} JoinChars(parts: seq<string>)
    requires forall i, j :: 0 <= i < |parts| && 0 <= j < |parts[i]| ==> SequenceChar(parts[i][j])
    ensures forall k :: 0 <= k < |Join(parts)| ==> SequenceChar(Join(parts)[k])
    decreases |parts|
  {
    if |parts| > 1 {
      JoinChars(parts[1..]);
      var j := Join(parts);
      assert j == parts[0] + "," + Join(parts[1..]);
      forall k | 0 <= k < |j|
        ensures SequenceChar(j[k])
      {
        if k < |parts[0]| {
          assert j[k] == parts[0][k];
        } else if k > |parts[0]| {
          assert j[k] == Join(parts[1..])[k - |parts[0]| - 1];
        }
      }
    }
  }

  /** A shard-sequence text holds only `R`, `S`, digits, minus signs and commas; in
      particular no space and no line break. */
  lemma SequenceTextChars(s: seq<DimSpec>)
    ensures forall k :: 0 <= k < |SequenceText(s)| ==> SequenceChar(SequenceText(s)[k])
    ensures ' ' !in SequenceText(s)
  {
    var parts := Renders(s);
    forall i, j | 0 <= i < |parts| && 0 <= j < |parts[i]|
      ensures SequenceChar(parts[i][j])
    {
      RenderChars(s[i]);
    }
    JoinChars(parts);
  }

  lemma {:induction false} ParseAllRenders(s: seq<DimSpec>)
    requires forall i :: 0 <= i < |s| ==> SingleDigitAxes(s[i])
    ensures ParseAll(Renders(s)) == Some(s)
    decreases |s|
  {
    if |s| > 0 {
      RenderRoundTrip(s[0]);
      assert Renders(s)[1..] == Renders(s[1..]);
      ParseAllRenders(s[1..]);
      assert [s[0]] + s[1..] == s;
    }
  }

  /** Over single-digit axes the shard-sequence text determines the sequence. */
  lemma SequenceTextRoundTrip(s: seq<DimSpec>)
    requires forall i :: 0 <= i < |s| ==> SingleDigitAxes(s[i])
    ensures ParseSequenceText(SequenceText(s)) == Some(s)
  {
    ParseAllRenders(s);
    if |s| > 0 {
      var parts := Renders(s);
      forall i | 0 <= i < |parts|
        ensures ',' !in parts[i]
      {
        RenderChars(s[i]);
      }
      SplitJoin(parts);
      assert Join(parts) != "" by {
        if |parts| > 1 {
          assert |Join(parts)| >= |parts[0]|;
        }
      }
    }
  }

  lemma {:induction false} FlattenMembers(d: Partition, i: int, x: int)
    requires 0 <= i < |d|
    requires x in d[i].1
    ensures x in Flatten(d)
    decreases |d|
  {
    if i > 0 {
      assert d[i] == d[1..][i - 1];
      FlattenMembers(d[1..], i - 1, x);
    }
  }

  lemma {:induction false} AssignEntriesOrigin(s: seq<DimSpec>, d: Partition)
    requires AssignEntries(s, d).Ok?
    ensures forall k :: 0 <= k < |s| ==>
      var v := AssignEntries(s, d).value[k];
      v == s[k] || exists i :: 0 <= i < |d| && v == Shard(d[i].1)
    decreases |d|
  {
    if |d| > 0 {
      var k0 := PyIndex(d[0].0, |s|).value;
      var s' := s[k0 := Shard(d[0].1)];
      AssignEntriesOrigin(s', d[1..]);
      forall k | 0 <= k < |s|
        ensures var v := AssignEntries(s, d).value[k];
          v == s[k] || exists i :: 0 <= i < |d| && v == Shard(d[i].1)
      {
        var v := AssignEntries(s, d).value[k];
        if v != s'[k] {
          var i :| 0 <= i < |d[1..]| && v == Shard(d[1..][i].1);
          assert d[1..][i] == d[i + 1];
        } else if k == k0 {
          assert v == Shard(d[0].1);
        }
      }
    }
  }

  /** A spec built over a mesh of at most ten axes renders to a text that gives its
      sharding sequence back. */
  lemma SpecSequenceTextRoundTrip(mesh: DeviceMesh, entireShape: seq<nat>, partition: Partition)
    requires mesh.logicalDims <= 10
    requires NewShardingSpec(mesh, entireShape, partition).Ok?
    ensures var spec := NewShardingSpec(mesh, entireShape, partition).value;
      ParseSequenceText(SequenceText(spec.sequence)) == Some(spec.sequence)
  {
    var spec := NewShardingSpec(mesh, entireShape, partition).value;
    var s0 := seq(|entireShape|, _ => Replica);
    assert spec.sequence == AssignEntries(s0, partition).value;
    AssignEntriesOrigin(s0, partition);
    forall k | 0 <= k < |spec.sequence|
      ensures SingleDigitAxes(spec.sequence[k])
    {
      var v := spec.sequence[k];
      if v != Replica {
        var i :| 0 <= i < |partition| && v == Shard(partition[i].1);
        forall j | 0 <= j < |v.axes|
          ensures 0 <= v.axes[j] < 10
        {
          FlattenMembers(partition, i, v.axes[j]);
        }
      }
    }
    SequenceTextRoundTrip(spec.sequence);
  }

  /** The whole `__repr__` text of a spec built over at most ten mesh axes determines
      its sharding sequence. */
  lemma SpecTextRoundTrip(mesh: DeviceMesh, entireShape: seq<nat>, partition: Partition)
    requires mesh.logicalDims <= 10
    requires NewShardingSpec(mesh, entireShape, partition).Ok?
    ensures var spec := NewShardingSpec(mesh, entireShape, partition).value;
      ParseSpecText(SpecText(spec)) == Some(spec.sequence)
  {
    SpecSequenceTextRoundTrip(mesh, entireShape, partition);
  }
}

=== FILE: text.dfy ===
/** Cutting a text at the first occurrence of a separator character, the step every
    reader of the model's printed formats is built from. */
module Texts {
  import opened Results

  /** The text before the first `ch` and the text after it, or `None` when `s` holds
      no `ch` at all. */
  function SplitOnce(s: string, ch: char): (r: Option<(string, string)>)
    ensures r.None? <==> ch !in s
    ensures r.Some? ==> ch !in r.value.0 && s == r.value.0 + [ch] + r.value.1
    decreases |s|
  {
    if |s| == 0 then None
    else if s[0] == ch then Some(([], s[1..]))
    else
      match SplitOnce(s[1..], ch)
      case None => None
      case Some((a, b)) => Some(([s[0]] + a, b))
  }

  /** A separator is found where it was put, provided the part before it does not hold
      one: `SplitOnce` inverts `a + [ch] + b`. */
  lemma {:induction false} SplitOnceAt(a: string, ch: char, b: string)
    requires ch !in a
    ensures SplitOnce(a + [ch] + b, ch) == Some((a, b))
    decreases |a|
  {
    var s := a + [ch] + b;
    if |a| > 0 {
      assert s[0] == a[0];
      assert s[1..] == a[1..] + [ch] + b;
      SplitOnceAt(a[1..], ch, b);
      assert [a[0]] + a[1..] == a;
    }
  }
}
